=== FILE: README.md ===
# MMU host-command core, modelled in Dafny

This project models the command core of the MM-control-01 firmware. The
firmware drives a multi-material unit (MMU) that feeds one of five filaments
to a 3D printer. The model covers five pieces:

- `process_commands`: the stop-and-wait link step. It resends, ACKs a
  filament-sensor trigger, NACKs corrupt frames, or ACKs and dispatches a
  command.
- The manual filament selector.
- The branch choice and idle power-down check of `loop()`.
- The three operator-assisted recovery loops: `fixTheProblem`,
  `fixSelCrash` and `fixIdlCrash`.
- The LED mask arithmetic.

It is written in a functional style. The firmware globals are an immutable
`State` (a `Link` session and a `Device`). One call of `process_commands`
is a pure function `ProcessCommands.Step(cfg, state, input)`. It returns the
new state, and a trace of `Event`s in program order. Each event is either a
link emission (`Tx(Ack)`, `Tx(Nack)`, `Tx(Send(payload))`) or a call into a
collaborator (`Do(action)`): `toolChange`, `feed_filament`, the motor
drivers, the LEDs, and so on. main.cpp does not define the collaborators,
so their effect on the device enters the model in two ways:

- `toolChange(c)` and `set_positions(c, …)` leave channel `c` selected.
- The globals that the collaborators maintain are `isPrinting`,
  `isEjected`, `trackToolChanges`, `selSGFailCount` and `idlSGFailCount`.
  Whenever a command arm calls a collaborator, these five take the values
  in a `Dispatch.Handoff`. The handoff is part of the step input. This is
  how `E c` can enter the ejected state, `R0` can leave it, and a tool
  change can start a print.

Every other device global is taken to be left alone by the collaborators
(see "## Left out"). The recovery loops are functions over a finite sequence of
loop-guard observations (`Tick`s). Each pass of a loop polls the link
through the same `Step` as the main loop.

The build-time constants are parameters, in `MachineState.Config`:
`EXTRUDERS`, the `OK` reply, `FW_VERSION`, `FW_BUILDNR`, `BLK`, `TXTimeout`
and `WAKE_TIMER`. The firmware's configuration header defines them, and that
header is not part of this model.

Files, one module each:
- `types.dfy`: bytes, payloads, buttons, events.
- `state.dfy`: `Config`, `Device`, `Link`, `State`.
- `framing.dfy`: the frame and its checksum.
- `commands.dfy`: the command vocabulary as a tagged variant; `Decode` and
  its inverse `Encode`.
- `dispatch.dfy`: the command arms.
- `process_commands.dfy`: the step and its protocol lemmas.
- `leds.dfy`, `selector.dfy`, `main_loop.dfy`, `recovery.dfy`.

In these places the model follows the code as written:

- An `M` frame whose argument is neither `'0'` nor `'1'` still
  re-initialises the drivers in the current mode and replies OK
  (main.cpp:244-251).
- Idle power-down needs elapsed time strictly greater than `WAKE_TIMER`
  (main.cpp:168).
- In error state, an intact confirmed frame gets neither ACK nor NACK
  (main.cpp:190-192).
- The park blink of the selector tests `active_extruder == 5`, a literal,
  not `EXTRUDERS` (main.cpp:125).
- The power-down test compares the driver-enable word with the decimal
  literal `111` (main.cpp:169).

## Model

| member | source | states |
|---|---|---|
| Framing.ChecksumIsUnsigned | MM-control-01/main.cpp:177-190 | storing the two checksum bytes in an `int16_t` never changes the comparison with the byte sum, because that sum is at most 765 |
| Framing.Seal | MM-control-01/main.cpp:177-190 | a sender's frame (bytes followed by their sum, high byte first) always passes the checksum test |
| Framing.ChecksumAcceptsExactlySealed | MM-control-01/main.cpp:177-190 | the checksum test accepts a frame if and only if it is the sealed encoding of its own three payload bytes |
| Commands.Decode | MM-control-01/main.cpp:196-288 | the command chosen by the if/else chain is always in range; `T`/`L`/`E` with channel ≥ EXTRUDERS and `F` with channel ≥ EXTRUDERS or type > 2 decode to `Ignored` |
| Commands.DecodeEncode | MM-control-01/main.cpp:196-288 | every in-range command has an encoding that the chain decodes back to that same command |
| Commands.EncodeDecode | MM-control-01/main.cpp:196-288 | conversely, a recognised triple re-encodes to its own opcode and to its argument bytes, except the argument of an `M` frame other than M0/M1, which the encoding writes as 0 |
| Commands.DecodeReadsArg2OnlyForF | MM-control-01/main.cpp:196-288 | only the `F` command depends on the third payload byte |
| Dispatch.StartReply | MM-control-01/main.cpp:230-243 | S0 replies OK; S1/S2 reply high byte, low byte and BLK, which reassemble to FW_VERSION/FW_BUILDNR; S3 replies 'O','K',active_extruder |
| Dispatch.FindaReply | MM-control-01/main.cpp:261-269 | P0 replies 'P','K' and a third byte that is 0 exactly when printing with no filament at FINDA, else 1 |
| Dispatch.Execute | MM-control-01/main.cpp:196-288 | command arms never emit ACK/NACK, never power down, and keep inErrorState and startWakeTime. The collaborator-owned globals change only when the arm calls a collaborator, and then to what the collaborator leaves. U0 then clears isPrinting and zeroes trackToolChanges itself. The channel moves only by a tool change or by a load with no filament, and only to the requested channel. An ignored frame changes nothing and replies nothing |
| ProcessCommands.Step | MM-control-01/main.cpp:172-290 | the step keeps the state valid and keeps inErrorState; in error state it only services the link; without a dispatch the device state is unchanged; without a collaborator call the collaborator-owned globals are unchanged |
| ProcessCommands.ResendIsSideEffectFree | MM-control-01/main.cpp:179-185 | a due resend emits exactly the retained payload and clears txRESEND, confirmedPayload and startRxFlag; there is no ACK, NACK or dispatch, and the device is unchanged |
| ProcessCommands.NackDispatchesNothing | MM-control-01/main.cpp:190-191 | a confirmed frame with a bad checksum, or a requested NACK, yields the sensor ACK (if owed) and one NACK, and dispatches nothing |
| ProcessCommands.DispatchIffAccepted | MM-control-01/main.cpp:179-196 | a command runs if and only if no resend is due and the frame is confirmed, intact, not NACK-forced and not in error state; it is the decoded command |
| ProcessCommands.AckPrecedesReplies | MM-control-01/main.cpp:192-194 | for an accepted frame the frame ACK comes before every reply and collaborator call, and no ACK/NACK follows it |
| ProcessCommands.ErrorStateIgnoresFrames | MM-control-01/main.cpp:190-192 | in error state an intact frame gets no ACK and no NACK, and only the sensor-ACK flag changes |
| ProcessCommands.AckOnlyForDispatchOrSensor | MM-control-01/main.cpp:186-193 | an ACK is emitted only for a dispatched frame or for a filament-sensor trigger |
| ProcessCommands.OutOfRangeIsDropped | MM-control-01/main.cpp:196-283 | out-of-range `T`, `L`, `E` and `F` frames are ACKed and then silently dropped: no reply and no device change |
| ProcessCommands.SetFilamentTypeOnlyWritesType | MM-control-01/main.cpp:252-257 | a valid `F c t` changes only `filament_type[c]` and replies OK |
| ProcessCommands.DuplicateToolChangeIsSuppressed | MM-control-01/main.cpp:196-201 | `T c` for the selected, loaded channel outside a runout change only sets duplicateTCmd and replies OK |
| ProcessCommands.ToolChangeIsPerformed | MM-control-01/main.cpp:202-208 | any other in-range `T c` clears the runout and duplicate flags, sets mmuFSensorLoading, selects c, runs one tool change, then replies OK; the print, eject and counter globals are what the tool change leaves, and nothing else on the device changes |
| ProcessCommands.ContinueLoadHonoursDuplicate | MM-control-01/main.cpp:270-276 | `C0` always replies OK, and loads into the extruder if and only if the last tool change was not a duplicate; after a duplicate the device is unchanged |
| ProcessCommands.QueryReplies | MM-control-01/main.cpp:224-269 | exact replies of S0, S1, S2, S3 and P0, each without device change; U0 unloads, replies OK, then clears isPrinting and zeroes trackToolChanges over what the unload left |
| ProcessCommands.OtherArms | MM-control-01/main.cpp:210-287 | exact replies, calls and device of the arms that hand over to a collaborator: loaded `L c` sends "Z1-", polls, sends "ZZZ" and OK, and keeps the channel; unloaded `L c` selects c, feeds, replies OK; `M` re-initialises the drivers in the chosen (or current) mode and replies OK; `E c` starts a runout change, ejects, replies OK; `R0` recovers and replies OK; `X0` arms the watchdog and replies nothing |
| ProcessCommands.RepeatedToolChangeIsIdempotent | MM-control-01/main.cpp:196-208 | a host that sends `T c` twice gets OK twice, and the second `T c` is a duplicate with no tool change, also when the first arrived during a runout change |
| ProcessCommands.RunoutChangeIsNotDuplicate | MM-control-01/main.cpp:199-206 | during a runout change the same channel's `T` still runs the tool change and clears the runout flag |
| ProcessCommands.ActiveChannelScenario | MM-control-01/main.cpp:240-242 | S3 with channel 2 selected replies exactly ACK then 'O','K',2 |
| ProcessCommands.BadChecksumScenario | MM-control-01/main.cpp:177-191 | `T 1` with a wrong checksum is answered by a lone NACK and changes nothing |
| Leds.MaskLayout | MM-control-01/main.cpp:334-335 | for channels 0..4 the red mask is the green mask shifted left once; no two LED masks share a bit; all fit in ten bits |
| Leds.ChannelLed | MM-control-01/main.cpp:96 | the corrected selector LED exists exactly when the as-written shift count is defined, and then it is that channel's green mask |
| Selector.ManualExtruderSelector | MM-control-01/main.cpp:93-132 | a click moves the selector by at most one position, stays within 0..EXTRUDERS, and moves it only with no filament loaded; "X1-" is sent if and only if a right click leaves it at park; when loaded, a click emits "Z1-", a nested poll and "ZZZ" as one contiguous run, and a loaded selector sends no payload other than "Z1-" and "ZZZ" |
| Selector.RightThenLeft | MM-control-01/main.cpp:100-107 | a right click then a left click returns to the starting channel |
| Selector.LeftThenRight | MM-control-01/main.cpp:100-107 | a left click then a right click returns to the starting position |
| Selector.LeftFromPark | MM-control-01/main.cpp:104-106 | a left click at park sends "ZZZ" and selects the last channel |
| Selector.ParkLedShiftIsNegative | MM-control-01/main.cpp:96-101 | with five channels a right click from channel 4 reaches park, where line 96's shift count is negative (undefined) |
| Selector.SelectorLedIsDefined | MM-control-01/main.cpp:95-131 | with the corrected line 96, every selector position draws a defined LED pattern: the channel's green LED, or the park blink |
| MainLoop.BranchOf | MM-control-01/main.cpp:148-155 | manual selection runs if and only if neither printing nor ejected; the eject branch runs if and only if ejected |
| MainLoop.Elapsed | MM-control-01/main.cpp:168 | `millis() - startWakeTime` is the plain difference within one 32-bit period and wraps once when millis() has overflowed |
| MainLoop.BranchStep | MM-control-01/main.cpp:148-166 | after the poll only the selected channel can change, and only in manual mode with no filament loaded |
| MainLoop.LoopIteration | MM-control-01/main.cpp:144-170 | one pass keeps the link as the poll left it; disableAllSteppers runs if and only if elapsed > WAKE_TIMER, no filament, not printing and enable word ≠ 111 |
| MainLoop.CollaboratorsSteerTheBranch | MM-control-01/main.cpp:148-155 | after an accepted `E c`, `R0` or non-duplicate `T c`, the branch of the next loop pass is the one selected by the printing and ejected values that eject_filament, recover_after_eject or toolChange leave |
| MainLoop.NoPowerDownWhilePrinting | MM-control-01/main.cpp:168-169 | the drivers are never switched off while printing |
| MainLoop.MiddleButtonFeedsOrOpensMenu | MM-control-01/main.cpp:150-154 | in manual mode the middle button feeds a real channel and opens the setup menu at park |
| Recovery.WaitLoop | MM-control-01/main.cpp:303-305 | the loop ends at the first tick that falsifies its guard and only there; in error state its polls leave the device unchanged and emit link traffic only |
| Recovery.FixTheProblem | MM-control-01/main.cpp:295-377 | exits if and only if some tick has the middle button and no filament, and then at the first such tick; on exit the error is cleared and trackToolChanges is 0; while waiting only inErrorState has changed |
| Recovery.FixSelCrash | MM-control-01/main.cpp:379-398 | exits if and only if the middle button is seen, and then at the first middle click; on exit selSGFailCount is 0 and the error is cleared, nothing else changes |
| Recovery.FixIdlCrash | MM-control-01/main.cpp:400-418 | exits if and only if the middle button is seen, and then at the first middle click; on exit idlSGFailCount is 0 and the error is cleared, nothing else changes |
| Recovery.NoExitWhileLoaded | MM-control-01/main.cpp:303 | fixTheProblem never leaves its loop at a tick where FINDA still sees filament, whatever the button |
| Recovery.LoopOnlyServicesLink | MM-control-01/main.cpp:301-305 | while a recovery loop waits, its polls run no collaborator call and change no device field |
| Recovery.ResendServedDuringRecovery | MM-control-01/main.cpp:179-185 | a resend that falls due during fixTheProblem is sent in the loop's first pass |

## Findings

| source | as written | input that shows it | evidently intended | confidence | as-written member | corrected member |
|---|---|---|---|---|---|---|
| MM-control-01/main.cpp:96 | `shr16_set_led(1 << 2 * (4 - active_extruder))` runs for every selector position, park included | `active_extruder == 5` (park), reached by a right click from channel 4 at line 101: the shift count is −2, which is undefined behaviour in C++ | no channel LED at park, since lines 125-131 draw the park blink | high (not executed) | Selector.ParkLedShiftIsNegative | Leds.ChannelLed |

## Left out

- Link effects of `txACK` and `txPayload` are not modelled. These calls
  store `lastTxPayload`, arm `pendingACK` and `startTXTimeout`, and may clear
  `confirmedPayload`, but they are defined in a file that is not part of this
  model. The step leaves those link fields as main.cpp leaves them, so
  "exactly once" is stated per step, not across steps.
- The receive interrupt that fills `rxData*`, `rxCSUM*` and
  `confirmedPayload` is left out. The frame and the flags are step inputs.
- `setup()` is left out: register setup, `sei()`, initial homing and its
  "STR" message are hardware initialisation.
- Collaborator behaviour is left out: `toolChange`, `feed_filament`,
  `eject_filament`, `recover_after_eject`, `setupMenu`,
  `unload_filament_withSensor`, `load_filament_into_extruder`, `home`,
  motion and driver calls. They are recorded as actions. Their state effect
  is the channel selection and the handoff described above.
- Dispatch.Execute: the collaborators that a command arm calls are taken
  to leave `activeExtruder` (apart from selecting `c`), `duplicateTCmd`,
  `m600RunoutChanging`, `mmuFSensorLoading`, `filament_type`,
  `tmc2130_mode`, `inErrorState` and `startWakeTime` as they found them.
  Only `isPrinting`, `isEjected`, `trackToolChanges`, `selSGFailCount` and
  `idlSGFailCount` come back through the handoff. The bodies of those
  collaborators are not part of this model.
- MainLoop.BranchStep: `feed_filament`, `setupMenu`, the nested poll of the
  selector and the retract move of the ejected branch are taken to leave
  every device global except the selected channel unchanged. So one loop
  pass changes the collaborator-owned globals only through its poll.
- The re-entrant `process_commands()` calls at lines 117 and 216 are
  recorded as a single `NestedPoll` action, not as recursion. At line 216
  the handoff stands for whatever that nested poll leaves in the
  collaborator-owned globals.
- `delay` calls and `led_blink` are left out: timing only.
- In `fixTheProblem`, the jog branches (lines 306-367) are left out: the
  pulley moves with floating-point `BOWDEN_LENGTH * 1.5` and `* 1.8`
  scaling. The loop guard and the poll of each pass are modelled.
- LED writes inside the recovery loops (lines 331-335, 361-366, 389-393,
  409-413) are left out. They use the same masks as `Leds.GreenMask` and
  `Leds.RedMask`, with the same negative shift at park.
- The eject branch of `loop()` (lines 155-166) is recorded as one
  `RetractEjected` move between pulley engage and release. Its distance and
  speed table are left out.
- ProcessCommands.ResendDue: compares `startTXTimeout + TXTimeout < millis()`
  on naturals. The declared widths of those variables are not in main.cpp,
  so a 32-bit wrap of the sum is not modelled. Idle power-down does model
  the 32-bit `millis()` subtraction.
- The meaning of the driver-enable word compared with `111` at line 169 is
  not modelled. It is an opaque input.

=== FILE: commands.dfy ===
/** The command vocabulary of process_commands: which (op, arg1, arg2)
    triples the if/else chain acts on, as a tagged variant. `Ignored` is every
    triple the chain falls through without a reply, including channels and
    filament types out of range. */
module Commands {
  import opened Types
  import opened MachineState

  /** The S subcodes '0'..'3'. */
  datatype Query = Hello | Version | Build | ActiveChannel

  datatype Command =
    | ToolChange(channel: nat)                   // T c
    | LoadFilament(channel: nat)                 // L c
    | UnloadFilament                             // U0
    | Start(query: Query)                        // S0..S3
    | SetMode(mode: Option<DriverMode>)          // M0, M1, or M with another argument
    | SetFilamentType(channel: nat, kind: nat)   // F c t
    | ResetDevice                                // X0
    | ReadFinda                                  // P0
    | ContinueLoad                               // C0
    | EjectFilament(channel: nat)                // E c
    | RecoverAfterEject                          // R0
    | Ignored

  /** Channel and filament-type arguments that the firmware accepts. */
  predicate InRange(cfg: Config, c: Command)
  {
    match c
    case ToolChange(ch) => ch < cfg.extruders
    case LoadFilament(ch) => ch < cfg.extruders
    case SetFilamentType(ch, k) => ch < cfg.extruders && k <= 2
    case EjectFilament(ch) => ch < cfg.extruders
    case _ => true
  }

  /** The subcode byte of an S command, if it is one of '0'..'3'. */
  function QueryOf(arg: Byte): (q: Option<Query>)
    ensures q.Some? <==> Chr('0') <= arg <= Chr('3')
  {
    if arg == Chr('0') then Some(Hello)
    else if arg == Chr('1') then Some(Version)
    else if arg == Chr('2') then Some(Build)
    else if arg == Chr('3') then Some(ActiveChannel)
    else None
  }

  /** Which command the if/else chain of process_commands runs for a frame. */
  function Decode(cfg: Config, op: Byte, arg1: Byte, arg2: Byte): (c: Command)
    ensures InRange(cfg, c)
    ensures c.ToolChange? || c.LoadFilament? || c.EjectFilament? ==> c.channel == arg1
    ensures c.SetFilamentType? ==> c.channel == arg1 && c.kind == arg2
    ensures op == Chr('T') && arg1 >= cfg.extruders ==> c == Ignored
    ensures op == Chr('L') && arg1 >= cfg.extruders ==> c == Ignored
    ensures op == Chr('E') && arg1 >= cfg.extruders ==> c == Ignored
    ensures op == Chr('F') && (arg1 >= cfg.extruders || arg2 > 2) ==> c == Ignored
  {
    if op == Chr('T') then
      if arg1 < cfg.extruders then ToolChange(arg1) else Ignored
    else if op == Chr('L') then
      if arg1 < cfg.extruders then LoadFilament(arg1) else Ignored
    else if op == Chr('U') && arg1 == Chr('0') then UnloadFilament
    else if op == Chr('S') then
      match QueryOf(arg1)
      case Some(q) => Start(q)
      case None => Ignored
    else if op == Chr('M') then
      SetMode(if arg1 == Chr('0') then Some(Normal)
              else if arg1 == Chr('1') then Some(Stealth)
              else None)
    else if op == Chr('F') then
      if arg1 < cfg.extruders && arg2 <= 2 then SetFilamentType(arg1, arg2) else Ignored
    else if op == Chr('X') && arg1 == Chr('0') then ResetDevice
    else if op == Chr('P') && arg1 == Chr('0') then ReadFinda
    else if op == Chr('C') && arg1 == Chr('0') then ContinueLoad
    else if op == Chr('E') then
      if arg1 < cfg.extruders then EjectFilament(arg1) else Ignored
    else if op == Chr('R') && arg1 == Chr('0') then RecoverAfterEject
    else Ignored
  }

  /** The three payload bytes a host sends for a command. */
  datatype Request = Request(op: Byte, arg1: Byte, arg2: Byte)

  /** Host-side encoding; the inverse of Decode. */
  function Encode(cfg: Config, c: Command): (q: Request)
    requires WellFormed(cfg) && InRange(cfg, c) && c != Ignored
    // Only F carries a third byte.
    ensures q.arg2 != 0 ==> c.SetFilamentType?
  {
    match c
    case ToolChange(ch) => Request(Chr('T'), ch, 0)
    case LoadFilament(ch) => Request(Chr('L'), ch, 0)
    case UnloadFilament => Request(Chr('U'), Chr('0'), 0)
    case Start(q) =>
      Request(Chr('S'),
              match q
              case Hello => Chr('0')
              case Version => Chr('1')
              case Build => Chr('2')
              case ActiveChannel => Chr('3'),
              0)
    case SetMode(m) =>
      Request(Chr('M'),
              match m
              case Some(Normal) => Chr('0')
              case Some(Stealth) => Chr('1')
              case None => 0,
              0)
    case SetFilamentType(ch, k) => Request(Chr('F'), ch, k)
    case ResetDevice => Request(Chr('X'), Chr('0'), 0)
    case ReadFinda => Request(Chr('P'), Chr('0'), 0)
    case ContinueLoad => Request(Chr('C'), Chr('0'), 0)
    case EjectFilament(ch) => Request(Chr('E'), ch, 0)
    case RecoverAfterEject => Request(Chr('R'), Chr('0'), 0)
  }

  /** Every command the firmware acts on has an encoding that selects it. */
  lemma DecodeEncode(cfg: Config, c: Command)
    requires WellFormed(cfg) && InRange(cfg, c) && c != Ignored
    ensures var e := Encode(cfg, c); Decode(cfg, e.op, e.arg1, e.arg2) == c
  {
  }

  /** Only the F command reads the third payload byte. */
  lemma DecodeReadsArg2OnlyForF(cfg: Config, op: Byte, arg1: Byte, arg2: Byte, other: Byte)
    requires op != Chr('F')
    ensures Decode(cfg, op, arg1, arg2) == Decode(cfg, op, arg1, other)
  {
  }

  /** Conversely, a recognised triple is the encoding of its command up to
      the bytes the command does not read. */
  lemma EncodeDecode(cfg: Config, op: Byte, arg1: Byte, arg2: Byte)
    requires WellFormed(cfg)
    requires Decode(cfg, op, arg1, arg2) != Ignored
    ensures var e := Encode(cfg, Decode(cfg, op, arg1, arg2));
            && e.op == op
            && (Decode(cfg, op, arg1, arg2) != SetMode(None) ==> e.arg1 == arg1)
            && (op == Chr('F') ==> e.arg2 == arg2)
  {
  }
}

=== FILE: dispatch.dfy ===
/** The command arms of process_commands: what each recognised command does
    to the device globals and which replies and collaborator calls it makes,
    in order. The collaborators are not defined in main.cpp: toolChange(c) and
    set_positions(c) leave channel c selected, and the globals they own are
    handed back through a `Handoff`. */
module Dispatch {
  import opened Types
  import opened MachineState
  import opened Commands

  datatype Outcome = Outcome(dev: Device, events: seq<Event>)

  /** Reply to an S query. */
  function StartReply(cfg: Config, d: Device, q: Query): (p: Payload)
    requires WellFormed(cfg) && ValidDevice(cfg, d)
    ensures q == Hello ==> p == cfg.ok
    ensures q == Version ==> p.b0 * 256 + p.b1 == cfg.fwVersion && p.b2 == cfg.blk
    ensures q == Build ==> p.b0 * 256 + p.b1 == cfg.fwBuildNr && p.b2 == cfg.blk
    ensures q == ActiveChannel ==>
              p.b0 == Chr('O') && p.b1 == Chr('K') && p.b2 == d.activeExtruder
  {
    match q
    case Hello => cfg.ok
    case Version => Payload(cfg.fwVersion / 256, cfg.fwVersion % 256, cfg.blk)
    case Build => Payload(cfg.fwBuildNr / 256, cfg.fwBuildNr % 256, cfg.blk)
    case ActiveChannel => Payload(Chr('O'), Chr('K'), d.activeExtruder)
  }

  /** Reply to P0: the FINDA reading while printing, otherwise always 1. */
  function FindaReply(d: Device, loaded: bool): (p: Payload)
    ensures p.b0 == Chr('P') && p.b1 == Chr('K')
    ensures p.b2 == 0 <==> d.isPrinting && !loaded
    ensures p.b2 <= 1
  {
    Payload(Chr('P'), Chr('K'), if d.isPrinting && !loaded then 0 else 1)
  }

  /** The globals that the collaborators maintain (printing and ejected
      state, the tool-change counter and the two stall counters), as they
      stand once a command arm's collaborator calls have returned. */
  datatype Handoff = Handoff(isPrinting: bool, isEjected: bool, trackToolChanges: nat,
                             selSGFailCount: nat, idlSGFailCount: nat)

  function HandoffOf(d: Device): Handoff
  {
    Handoff(d.isPrinting, d.isEjected, d.trackToolChanges, d.selSGFailCount, d.idlSGFailCount)
  }

  /** The device once the collaborators have handed back their globals. */
  function TakeOver(d: Device, h: Handoff): (d': Device)
    ensures HandoffOf(d') == h
  {
    d.(isPrinting := h.isPrinting, isEjected := h.isEjected, trackToolChanges := h.trackToolChanges,
       selSGFailCount := h.selSGFailCount, idlSGFailCount := h.idlSGFailCount)
  }

  /** Fields that no command arm writes. The model assumes that the
      collaborators an arm calls leave them alone as well; their bodies are
      outside main.cpp. */
  predicate KeepsUntouched(d: Device, d': Device)
  {
    && d'.inErrorState == d.inErrorState
    && d'.startWakeTime == d.startWakeTime
  }

  /** main.cpp's own part of one command arm: its writes to the globals and
      its replies and collaborator calls, in order; `loaded` is the
      isFilamentLoaded() sample of this call. U0's writes after its
      collaborator call are left to `Execute`. */
  function Arm(cfg: Config, d: Device, cmd: Command, loaded: bool): (r: Outcome)
    requires WellFormed(cfg) && ValidDevice(cfg, d) && InRange(cfg, cmd)
    ensures ValidDevice(cfg, r.dev)
    ensures KeepsUntouched(d, r.dev) && HandoffOf(r.dev) == HandoffOf(d)
    ensures Tx(Ack) !in r.events && Tx(Nack) !in r.events
    ensures Do(DisableAllSteppers) !in r.events
    ensures r.dev.activeExtruder != d.activeExtruder ==>
              && (cmd.ToolChange? || (cmd.LoadFilament? && !loaded))
              && r.dev.activeExtruder == cmd.channel
    ensures cmd == Ignored ==> r.dev == d && r.events == []
  {
    match cmd
    case ToolChange(c) =>
      if d.activeExtruder == c && loaded && !d.m600RunoutChanging then
        Outcome(d.(duplicateTCmd := true), [Tx(Send(cfg.ok))])
      else
        Outcome(d.(m600RunoutChanging := false, mmuFSensorLoading := true,
                   duplicateTCmd := false, activeExtruder := c),
                [Do(RunToolChange(c)), Tx(Send(cfg.ok))])
    case LoadFilament(c) =>
      if loaded then
        Outcome(d, [Tx(Send(Z1Dash)), Do(NestedPoll), Tx(Send(ZZZ)), Tx(Send(cfg.ok))])
      else
        Outcome(d.(activeExtruder := c),
                [Do(SelectChannel(c)), Do(FeedFilament), Tx(Send(cfg.ok))])
    case UnloadFilament =>
      Outcome(d, [Do(UnloadWithSensor), Tx(Send(cfg.ok))])
    case Start(q) =>
      Outcome(d, [Tx(Send(StartReply(cfg, d, q)))])
    case SetMode(m) =>
      var mode := if m.Some? then m.value else d.tmcMode;
      Outcome(d.(tmcMode := mode), [Do(InitDrivers(mode)), Tx(Send(cfg.ok))])
    case SetFilamentType(c, k) =>
      Outcome(d.(filamentType := d.filamentType[c := k]), [Tx(Send(cfg.ok))])
    case ResetDevice =>
      Outcome(d, [Do(WatchdogReset)])
    case ReadFinda =>
      Outcome(d, [Tx(Send(FindaReply(d, loaded)))])
    case ContinueLoad =>
      if !d.duplicateTCmd then Outcome(d, [Tx(Send(cfg.ok)), Do(LoadIntoExtruder)])
      else Outcome(d, [Tx(Send(cfg.ok))])
    case EjectFilament(c) =>
      Outcome(d.(m600RunoutChanging := true), [Do(EjectChannel(c)), Tx(Send(cfg.ok))])
    case RecoverAfterEject =>
      Outcome(d, [Do(RecoverEject), Tx(Send(cfg.ok))])
    case Ignored =>
      Outcome(d, [])
  }

  /** Runs one command: main.cpp's part, then, when the arm called a
      collaborator, the globals `h` that the calls leave behind, and U0's
      own writes after its call. */
  function Execute(cfg: Config, d: Device, cmd: Command, loaded: bool, h: Handoff): (r: Outcome)
    requires WellFormed(cfg) && ValidDevice(cfg, d) && InRange(cfg, cmd)
    ensures ValidDevice(cfg, r.dev)
    ensures KeepsUntouched(d, r.dev)
    // Collaborator-owned globals change only across a collaborator call; U0
    // then ends the print and zeroes the counter itself.
    ensures AllTx(r.events) ==> HandoffOf(r.dev) == HandoffOf(d)
    ensures !AllTx(r.events) ==>
              HandoffOf(r.dev) == if cmd.UnloadFilament? then h.(isPrinting := false, trackToolChanges := 0) else h
    ensures cmd.UnloadFilament? ==> !r.dev.isPrinting && r.dev.trackToolChanges == 0
    ensures Tx(Ack) !in r.events && Tx(Nack) !in r.events
    ensures Do(DisableAllSteppers) !in r.events
    // The channel only moves through a tool change, or through a load while
    // no filament blocks the selector, and then to the requested channel.
    ensures r.dev.activeExtruder != d.activeExtruder ==>
              && (cmd.ToolChange? || (cmd.LoadFilament? && !loaded))
              && r.dev.activeExtruder == cmd.channel
    ensures cmd == Ignored ==> r.dev == d && r.events == []
  {
    var a := Arm(cfg, d, cmd, loaded);
    assert cmd.UnloadFilament? ==> a.events[0] == Do(UnloadWithSensor);
    var d1 := if AllTx(a.events) then a.dev else TakeOver(a.dev, h);
    var d2 := if cmd.UnloadFilament? then d1.(isPrinting := false, trackToolChanges := 0) else d1;
    Outcome(d2, a.events)
  }
}

=== FILE: framing.dfy ===
/** An inbound frame as the receive interrupt leaves it (rxData1..3 and
    rxCSUM1/2), and the checksum test of process_commands. */
module Framing {
  import opened Types

  datatype Frame = Frame(op: Byte, arg1: Byte, arg2: Byte, csum1: Byte, csum2: Byte)

  /** tData1 + tData2 + tData3, computed in int. */
  function PayloadSum(f: Frame): (n: nat)
    ensures n <= 765
  {
    f.op + f.arg1 + f.arg2
  }

  /** `(rxCSUM1 << 8) | rxCSUM2` as a 16-bit pattern: the shift leaves the
      low eight bits clear and rxCSUM2 fits in them, so the OR is a sum. */
  function Csum16(f: Frame): (v: nat)
    ensures v < 0x1_0000
    ensures v / 256 == f.csum1 && v % 256 == f.csum2
  {
    f.csum1 * 256 + f.csum2
  }

  /** Storing a 16-bit pattern in an int16_t: two's complement. */
  function ToInt16(v: nat): (r: int)
    requires v < 0x1_0000
    ensures -0x8000 <= r < 0x8000
    ensures r == v || r == v - 0x1_0000
  {
    if v < 0x8000 then v else v - 0x1_0000
  }

  /** The test `tCSUM == (tData1 + tData2 + tData3)`. */
  predicate ChecksumOk(f: Frame)
  {
    ToInt16(Csum16(f)) == PayloadSum(f)
  }

  /** Since a byte sum never reaches 0x8000, the signed comparison agrees
      with the unsigned one. */
  lemma ChecksumIsUnsigned(f: Frame)
    ensures ChecksumOk(f) <==> Csum16(f) == PayloadSum(f)
  {
  }

  /** What a sender puts on the wire: payload bytes followed by their sum,
      high byte first. */
  function Seal(op: Byte, arg1: Byte, arg2: Byte): (f: Frame)
    ensures f.op == op && f.arg1 == arg1 && f.arg2 == arg2
    ensures ChecksumOk(f)
  {
    var sum := op + arg1 + arg2;
    Frame(op, arg1, arg2, sum / 256, sum % 256)
  }

  /** The checksum accepts exactly the frames a correct sender produces. */
  lemma ChecksumAcceptsExactlySealed(f: Frame)
    ensures ChecksumOk(f) <==> f == Seal(f.op, f.arg1, f.arg2)
  {
    if ChecksumOk(f) {
      var sum := PayloadSum(f);
      assert f.csum1 * 256 + f.csum2 == sum;
      assert f.csum1 == sum / 256 && f.csum2 == sum % 256;
    }
  }
}

=== FILE: leds.dfy ===
/** The LED mask expressions `1 << 2 * (4 - i)` (green LED of channel i) and
    `2 << 2 * (4 - i)` (red LED of channel i). Channel 0 is the leftmost pair,
    so its LEDs are bits 8 and 9 of the ten-LED shift register. */
module Leds {
  import opened Types

  /** The shift count `2 * (4 - i)`, as written; negative for i > 4. */
  function ShiftCount(i: int): (n: int)
    ensures n >= 0 <==> i <= 4
    ensures n % 2 == 0
  {
    2 * (4 - i)
  }

  /** C++ defines `x << n` on the AVR's 16-bit int only for 0 <= n < 16. */
  predicate ShiftDefined(n: int)
  {
    0 <= n < 16
  }

  function GreenMask(i: nat): (m: bv16)
    requires i <= 4
  {
    1 << ShiftCount(i)
  }

  function RedMask(i: nat): (m: bv16)
    requires i <= 4
  {
    2 << ShiftCount(i)
  }

  /** Each channel owns one green and one red LED, next to each other, and no
      two LEDs share a bit. */
  lemma MaskLayout(i: nat, j: nat)
    requires i <= 4 && j <= 4
    ensures GreenMask(i) != 0 && RedMask(i) == GreenMask(i) << 1
    ensures GreenMask(i) & RedMask(j) == 0
    ensures i != j ==> GreenMask(i) & GreenMask(j) == 0 && RedMask(i) & RedMask(j) == 0
    ensures GreenMask(i) | RedMask(i) < 0x400
  {
  }

  /** The green LED that line 96 of the selector should light: the channel's
      own LED, and none at park, whose blink lines 125-131 draw. */
  function ChannelLed(active: nat): (m: Option<bv16>)
    ensures m.Some? <==> ShiftDefined(ShiftCount(active))
    ensures m.Some? ==> active <= 4 && m.value == GreenMask(active)
  {
    if active <= 4 then Some(GreenMask(active)) else None
  }
}

=== FILE: main_loop.dfy ===
/** One pass of loop(): poll the link, then the branch chosen by isPrinting
    and isEjected, then the idle power-down check. */
module MainLoop {
  import opened Types
  import opened MachineState
  import opened Commands
  import opened Dispatch
  import opened ProcessCommands
  import opened Selector

  /** What one pass reads: the poll's input, the first and second
      buttonClicked() samples, the FINDA samples of the selector and of the
      power-down test, millis() and the driver-enable word shr16_get_ena(). */
  datatype LoopInput = LoopInput(
    poll: PollInput,
    firstButton: Button,
    secondButton: Button,
    selectorLoaded: bool,
    idleLoaded: bool,
    now: nat,
    ena: nat)

  datatype Branch = ManualSelect | EjectedWait | Printing

  /** The if / else-if of the loop body. */
  function BranchOf(d: Device): (b: Branch)
    ensures b == ManualSelect <==> !d.isPrinting && !d.isEjected
    ensures b == EjectedWait <==> d.isEjected
  {
    if !d.isPrinting && !d.isEjected then ManualSelect
    else if d.isEjected then EjectedWait
    else Printing
  }

  /** `millis() - startWakeTime` in 32-bit unsigned arithmetic. */
  function Elapsed(now: nat, start: nat): (e: nat)
    ensures e < 0x1_0000_0000
    ensures start <= now < start + 0x1_0000_0000 ==> e == now - start
    ensures now < start < now + 0x1_0000_0000 ==> e == now + 0x1_0000_0000 - start
  {
    (now - start) % 0x1_0000_0000
  }

  /** The condition guarding disableAllSteppers(). */
  predicate PowerDownDue(cfg: Config, elapsed: nat, loaded: bool, printing: bool, ena: nat)
  {
    elapsed > cfg.wakeTimer && !loaded && !printing && ena != 111
  }

  datatype LoopResult = LoopResult(state: State, events: seq<Event>)

  /** What the selected branch does after the poll. */
  function BranchStep(cfg: Config, d: Device, input: LoopInput): (r: (Device, seq<Event>))
    requires WellFormed(cfg) && ValidDevice(cfg, d)
    ensures ValidDevice(cfg, r.0)
    ensures r.0 == d.(activeExtruder := r.0.activeExtruder)
    ensures r.0.activeExtruder != d.activeExtruder ==> BranchOf(d) == ManualSelect && !input.selectorLoaded
    ensures Do(DisableAllSteppers) !in r.1
  {
    match BranchOf(d)
    case ManualSelect =>
      var sel := ManualExtruderSelector(cfg, d.activeExtruder, input.selectorLoaded, input.firstButton);
      var middle :=
        if input.secondButton == Middle then
          if sel.active < cfg.extruders then [Do(FeedFilament)]
          else if sel.active == cfg.extruders then [Do(SetupMenu)]
          else []
        else [];
      (d.(activeExtruder := sel.active), sel.events + middle)
    case EjectedWait =>
      if input.firstButton == Right then
        (d, [Do(EngagePulley(true)), Do(RetractEjected), Do(EngagePulley(false))])
      else (d, [])
    case Printing => (d, [])
  }

  function LoopIteration(cfg: Config, s: State, input: LoopInput): (r: LoopResult)
    requires WellFormed(cfg) && Valid(cfg, s)
    ensures Valid(cfg, r.state)
    ensures var p := Step(cfg, s, input.poll).state;
            && r.state.link == p.link
            // After the poll only the selected channel can change, and only
            // through the manual selector with no filament loaded.
            && r.state.dev == p.dev.(activeExtruder := r.state.dev.activeExtruder)
            && (r.state.dev.activeExtruder != p.dev.activeExtruder ==>
                  !p.dev.isPrinting && !p.dev.isEjected && !input.selectorLoaded)
            // Idle power-down fires exactly when its condition holds.
            && (Do(DisableAllSteppers) in r.events <==>
                  PowerDownDue(cfg, Elapsed(input.now, s.dev.startWakeTime), input.idleLoaded,
                               p.dev.isPrinting, input.ena))
  {
    var p := Step(cfg, s, input.poll);
    var (d, branch) := BranchStep(cfg, p.state.dev, input);
    var down := if PowerDownDue(cfg, Elapsed(input.now, d.startWakeTime), input.idleLoaded,
                                d.isPrinting, input.ena)
                then [Do(DisableAllSteppers)] else [];
    var events := p.events + branch + down;
    assert Do(DisableAllSteppers) in events <==> Do(DisableAllSteppers) in down;
    LoopResult(p.state.(dev := d), events)
  }

  /** The drivers are never switched off while a print is running. */
  lemma NoPowerDownWhilePrinting(cfg: Config, s: State, input: LoopInput)
    requires WellFormed(cfg) && Valid(cfg, s)
    requires Step(cfg, s, input.poll).state.dev.isPrinting
    ensures Do(DisableAllSteppers) !in LoopIteration(cfg, s, input).events
  {
  }

  /** With the middle button in manual mode, a real channel is fed and park
      opens the setup menu. */
  lemma MiddleButtonFeedsOrOpensMenu(cfg: Config, s: State, input: LoopInput)
    requires WellFormed(cfg) && Valid(cfg, s)
    requires BranchOf(Step(cfg, s, input.poll).state.dev) == ManualSelect
    requires input.secondButton == Middle
    ensures var r := LoopIteration(cfg, s, input);
            var a := r.state.dev.activeExtruder;
            && (a < cfg.extruders ==> Do(FeedFilament) in r.events)
            && (a == cfg.extruders ==> Do(SetupMenu) in r.events)
  {
    var p := Step(cfg, s, input.poll);
    var (d, branch) := BranchStep(cfg, p.state.dev, input);
    var sel := ManualExtruderSelector(cfg, p.state.dev.activeExtruder, input.selectorLoaded, input.firstButton);
    assert d.activeExtruder == sel.active;
    var r := LoopIteration(cfg, s, input);
    assert r.events == p.events + branch + r.events[|p.events| + |branch|..];
    if sel.active < cfg.extruders {
      assert branch[|branch| - 1] == Do(FeedFilament);
    } else {
      assert branch[|branch| - 1] == Do(SetupMenu);
    }
  }

  /** Eject, recover-after-eject and a real tool change hand the loop's
      branch to what their collaborators leave: eject_filament can enter the
      ejected branch, recover_after_eject can leave it, and toolChange can
      start a print. */
  lemma CollaboratorsSteerTheBranch(cfg: Config, s: State, poll: PollInput)
    requires WellFormed(cfg) && Valid(cfg, s)
    requires !ResendDue(cfg, s.link, poll.now) && Accepts(s, poll.frame)
    ensures var f := poll.frame;
            var d := Step(cfg, s, poll).state.dev;
            var b := BranchOf(TakeOver(s.dev, poll.handoff));
            && (f.op == Chr('E') && f.arg1 < cfg.extruders ==> BranchOf(d) == b)
            && (f.op == Chr('R') && f.arg1 == Chr('0') ==> BranchOf(d) == b)
            && (f.op == Chr('T') && f.arg1 < cfg.extruders
                && !(s.dev.activeExtruder == f.arg1 && poll.loaded && !s.dev.m600RunoutChanging)
                ==> BranchOf(d) == b)
  {
    var f := poll.frame;
    var cmd := Decode(cfg, f.op, f.arg1, f.arg2);
    AcceptedStep(cfg, s, poll);
    if f.op == Chr('E') && f.arg1 < cfg.extruders {
      assert cmd == EjectFilament(f.arg1);
      assert Arm(cfg, s.dev, cmd, poll.loaded).events[0] == Do(EjectChannel(f.arg1));
    } else if f.op == Chr('R') && f.arg1 == Chr('0') {
      assert cmd == RecoverAfterEject;
      assert Arm(cfg, s.dev, cmd, poll.loaded).events[0] == Do(RecoverEject);
    } else if f.op == Chr('T') && f.arg1 < cfg.extruders
              && !(s.dev.activeExtruder == f.arg1 && poll.loaded && !s.dev.m600RunoutChanging) {
      assert cmd == ToolChange(f.arg1);
      assert Arm(cfg, s.dev, cmd, poll.loaded).events[0] == Do(RunToolChange(f.arg1));
    }
  }
}

=== FILE: process_commands.dfy ===
/** One call of process_commands as a pure step: resend, the filament-sensor
    ACK, NACK, or ACK followed by dispatch, in that priority. */
module ProcessCommands {
  import opened Types
  import opened MachineState
  import opened Framing
  import opened Commands
  import opened Dispatch

  /** What one call reads besides the globals: the frame slots, millis(),
      one isFilamentLoaded() sample (every arm reads it at most once) and the
      globals that the called collaborators hand back. */
  datatype PollInput = PollInput(frame: Frame, now: nat, loaded: bool, handoff: Handoff)

  /** `dispatched` is the command whose arm ran, if any. */
  datatype StepResult = StepResult(state: State, events: seq<Event>, dispatched: Option<Command>)

  /** An explicit resend request, or an unacknowledged reply past its timeout. */
  predicate ResendDue(cfg: Config, link: Link, now: nat)
  {
    link.txResend || (link.pendingAck && link.startTxTimeout + cfg.txTimeout < now)
  }

  /** A confirmed frame with a bad checksum, or a requested NACK. */
  predicate Rejects(link: Link, f: Frame)
  {
    (link.confirmedPayload && !ChecksumOk(f)) || link.txNakNext
  }

  /** A confirmed, intact frame while no recovery loop is running. */
  predicate Accepts(s: State, f: Frame)
  {
    s.link.confirmedPayload && ChecksumOk(f) && !s.link.txNakNext && !s.dev.inErrorState
  }

  /** The ACK owed to a filament-sensor trigger. */
  function SensorAck(link: Link): (t: seq<Event>)
    ensures AllTx(t) && |t| <= 1
    ensures link.fsensorTriggered <==> t == [Tx(Ack)]
  {
    if link.fsensorTriggered then [Tx(Ack)] else []
  }

  function Step(cfg: Config, s: State, input: PollInput): (r: StepResult)
    requires WellFormed(cfg) && Valid(cfg, s)
    ensures Valid(cfg, r.state)
    ensures r.state.dev.inErrorState == s.dev.inErrorState
    ensures KeepsUntouched(s.dev, r.state.dev)
    // Collaborator-owned globals only move when a collaborator was called.
    ensures AllTx(r.events) ==> HandoffOf(r.state.dev) == HandoffOf(s.dev)
    ensures Do(DisableAllSteppers) !in r.events
    // While a recovery loop runs, a call only services the link.
    ensures s.dev.inErrorState ==> r.state.dev == s.dev && r.dispatched == None && AllTx(r.events)
    // The device changes only through a dispatched command.
    ensures r.dispatched.None? ==> r.state.dev == s.dev
  {
    var link := s.link;
    if ResendDue(cfg, link, input.now) then
      StepResult(s.(link := link.(txResend := false, confirmedPayload := false, startRxFlag := false)),
                 [Tx(Send(link.lastTxPayload))], None)
    else
      var link' := link.(fsensorTriggered := false);
      var f := input.frame;
      if Rejects(link, f) then
        StepResult(s.(link := link'), SensorAck(link) + [Tx(Nack)], None)
      else if link.confirmedPayload && !s.dev.inErrorState then
        var cmd := Decode(cfg, f.op, f.arg1, f.arg2);
        var x := Execute(cfg, s.dev, cmd, input.loaded, input.handoff);
        var events := SensorAck(link) + [Tx(Ack)] + x.events;
        assert AllTx(events) ==> AllTx(x.events) by {
          if AllTx(events) {
            forall k | 0 <= k < |x.events| ensures x.events[k].Tx? {
              assert x.events[k] == events[|SensorAck(link)| + 1 + k];
            }
          }
        }
        StepResult(State(link', x.dev), events, Some(cmd))
      else
        StepResult(s.(link := link'), SensorAck(link), None)
  }

  /** The accepted path: sensor ACK, frame ACK, then the decoded command. */
  lemma AcceptedStep(cfg: Config, s: State, input: PollInput)
    requires WellFormed(cfg) && Valid(cfg, s)
    requires !ResendDue(cfg, s.link, input.now) && Accepts(s, input.frame)
    ensures var f := input.frame;
            var cmd := Decode(cfg, f.op, f.arg1, f.arg2);
            var x := Execute(cfg, s.dev, cmd, input.loaded, input.handoff);
            Step(cfg, s, input)
              == StepResult(State(s.link.(fsensorTriggered := false), x.dev),
                            SensorAck(s.link) + [Tx(Ack)] + x.events, Some(cmd))
  {
  }

  /** A resend retransmits the retained payload verbatim and does nothing else. */
  lemma ResendIsSideEffectFree(cfg: Config, s: State, input: PollInput)
    requires WellFormed(cfg) && Valid(cfg, s)
    requires ResendDue(cfg, s.link, input.now)
    ensures var r := Step(cfg, s, input);
            && r.events == [Tx(Send(s.link.lastTxPayload))]
            && r.state.link == s.link.(txResend := false, confirmedPayload := false, startRxFlag := false)
            && r.state.dev == s.dev
            && r.dispatched == None
  {
  }

  /** A corrupt confirmed frame, or a requested NACK, is answered by NACK and
      runs no command. */
  lemma NackDispatchesNothing(cfg: Config, s: State, input: PollInput)
    requires WellFormed(cfg) && Valid(cfg, s)
    requires !ResendDue(cfg, s.link, input.now) && Rejects(s.link, input.frame)
    ensures var r := Step(cfg, s, input);
            && r.events == SensorAck(s.link) + [Tx(Nack)]
            && r.state.dev == s.dev
            && r.dispatched == None
  {
  }

  /** A command runs exactly when the frame is accepted and no resend is due,
      and then it is the command the frame encodes. */
  lemma DispatchIffAccepted(cfg: Config, s: State, input: PollInput)
    requires WellFormed(cfg) && Valid(cfg, s)
    ensures var r := Step(cfg, s, input);
            && (r.dispatched.Some? <==> !ResendDue(cfg, s.link, input.now) && Accepts(s, input.frame))
            && (r.dispatched.Some? ==>
                  r.dispatched.value == Decode(cfg, input.frame.op, input.frame.arg1, input.frame.arg2))
  {
  }

  /** An accepted frame is acknowledged before any reply or collaborator call. */
  lemma AckPrecedesReplies(cfg: Config, s: State, input: PollInput)
    requires WellFormed(cfg) && Valid(cfg, s)
    requires !ResendDue(cfg, s.link, input.now) && Accepts(s, input.frame)
    ensures var r := Step(cfg, s, input);
            var n := |SensorAck(s.link)|;
            && n < |r.events| && r.events[n] == Tx(Ack)
            && (forall k :: 0 <= k < n ==> r.events[k] == Tx(Ack))
            && (forall k :: n < k < |r.events| ==> r.events[k] != Tx(Ack) && r.events[k] != Tx(Nack))
  {
    var r := Step(cfg, s, input);
    var f := input.frame;
    var x := Execute(cfg, s.dev, Decode(cfg, f.op, f.arg1, f.arg2), input.loaded, input.handoff);
    var pre := SensorAck(s.link) + [Tx(Ack)];
    assert r.events == pre + x.events;
    forall k | |pre| <= k < |r.events|
      ensures r.events[k] != Tx(Ack) && r.events[k] != Tx(Nack)
    {
      assert r.events[k] == x.events[k - |pre|];
      assert r.events[k] in x.events;
    }
  }

  /** In error state an intact frame gets neither ACK nor NACK and changes
      nothing but the sensor-ACK flag. */
  lemma ErrorStateIgnoresFrames(cfg: Config, s: State, input: PollInput)
    requires WellFormed(cfg) && Valid(cfg, s)
    requires s.dev.inErrorState
    requires !ResendDue(cfg, s.link, input.now) && !Rejects(s.link, input.frame)
    ensures var r := Step(cfg, s, input);
            && r.events == SensorAck(s.link)
            && r.state == s.(link := s.link.(fsensorTriggered := false))
  {
  }

  /** An ACK is only ever sent for a dispatched frame or a sensor trigger. */
  lemma AckOnlyForDispatchOrSensor(cfg: Config, s: State, input: PollInput)
    requires WellFormed(cfg) && Valid(cfg, s)
    ensures var r := Step(cfg, s, input);
            Tx(Ack) in r.events ==>
              r.dispatched.Some? || (s.link.fsensorTriggered && !ResendDue(cfg, s.link, input.now))
  {
    var r := Step(cfg, s, input);
    if Tx(Ack) in r.events && r.dispatched.None? && !ResendDue(cfg, s.link, input.now) {
      assert r.events == SensorAck(s.link) + [Tx(Nack)] || r.events == SensorAck(s.link);
    }
  }

  /** Out-of-range T, L, E and F frames are acknowledged and then dropped:
      no reply, no collaborator call, no device change. */
  lemma OutOfRangeIsDropped(cfg: Config, s: State, input: PollInput)
    requires WellFormed(cfg) && Valid(cfg, s)
    requires !ResendDue(cfg, s.link, input.now) && Accepts(s, input.frame)
    requires var f := input.frame;
             || ((f.op == Chr('T') || f.op == Chr('L') || f.op == Chr('E')) && f.arg1 >= cfg.extruders)
             || (f.op == Chr('F') && (f.arg1 >= cfg.extruders || f.arg2 > 2))
    ensures var r := Step(cfg, s, input);
            && r.events == SensorAck(s.link) + [Tx(Ack)]
            && r.state.dev == s.dev
  {
  }

  /** A valid F c t changes filament_type[c] and nothing else on the device. */
  lemma SetFilamentTypeOnlyWritesType(cfg: Config, s: State, input: PollInput)
    requires WellFormed(cfg) && Valid(cfg, s)
    requires !ResendDue(cfg, s.link, input.now) && Accepts(s, input.frame)
    requires input.frame.op == Chr('F') && input.frame.arg1 < cfg.extruders && input.frame.arg2 <= 2
    ensures var r := Step(cfg, s, input);
            && r.state.dev == s.dev.(filamentType := s.dev.filamentType[input.frame.arg1 := input.frame.arg2])
            && r.events == SensorAck(s.link) + [Tx(Ack), Tx(Send(cfg.ok))]
  {
  }

  /** T c for the channel already selected and loaded, outside a runout
      change, is a duplicate: it is answered OK and runs no tool change. */
  lemma DuplicateToolChangeIsSuppressed(cfg: Config, s: State, input: PollInput)
    requires WellFormed(cfg) && Valid(cfg, s)
    requires !ResendDue(cfg, s.link, input.now) && Accepts(s, input.frame)
    requires input.frame.op == Chr('T') && input.frame.arg1 < cfg.extruders
    requires s.dev.activeExtruder == input.frame.arg1 && input.loaded && !s.dev.m600RunoutChanging
    ensures var r := Step(cfg, s, input);
            && r.state.dev == s.dev.(duplicateTCmd := true)
            && r.events == SensorAck(s.link) + [Tx(Ack), Tx(Send(cfg.ok))]
  {
  }

  /** Any other in-range T c runs the tool change once, before the OK. */
  lemma ToolChangeIsPerformed(cfg: Config, s: State, input: PollInput)
    requires WellFormed(cfg) && Valid(cfg, s)
    requires !ResendDue(cfg, s.link, input.now) && Accepts(s, input.frame)
    requires input.frame.op == Chr('T') && input.frame.arg1 < cfg.extruders
    requires !(s.dev.activeExtruder == input.frame.arg1 && input.loaded && !s.dev.m600RunoutChanging)
    ensures var r := Step(cfg, s, input);
            var c := input.frame.arg1;
            && r.events == SensorAck(s.link) + [Tx(Ack), Do(RunToolChange(c)), Tx(Send(cfg.ok))]
            && r.state.dev == TakeOver(s.dev.(m600RunoutChanging := false, mmuFSensorLoading := true,
                                              duplicateTCmd := false, activeExtruder := c), input.handoff)
            && !r.state.dev.m600RunoutChanging && !r.state.dev.duplicateTCmd
            && r.state.dev.mmuFSensorLoading
            && r.state.dev.activeExtruder == c
            && HandoffOf(r.state.dev) == input.handoff
  {
    var f := input.frame;
    AcceptedStep(cfg, s, input);
    assert Decode(cfg, f.op, f.arg1, f.arg2) == ToolChange(f.arg1);
    assert Arm(cfg, s.dev, ToolChange(f.arg1), input.loaded).events[0] == Do(RunToolChange(f.arg1));
  }

  /** C0 always replies OK, and loads into the extruder only after a tool
      change that was not a duplicate; only that load touches the device. */
  lemma ContinueLoadHonoursDuplicate(cfg: Config, s: State, input: PollInput)
    requires WellFormed(cfg) && Valid(cfg, s)
    requires !ResendDue(cfg, s.link, input.now) && Accepts(s, input.frame)
    requires input.frame.op == Chr('C') && input.frame.arg1 == Chr('0')
    ensures var r := Step(cfg, s, input);
            && r.events == SensorAck(s.link) + [Tx(Ack), Tx(Send(cfg.ok))]
                           + (if s.dev.duplicateTCmd then [] else [Do(LoadIntoExtruder)])
            && (Do(LoadIntoExtruder) in r.events <==> !s.dev.duplicateTCmd)
            && r.state.dev == if s.dev.duplicateTCmd then s.dev else TakeOver(s.dev, input.handoff)
  {
    AcceptedStep(cfg, s, input);
    assert Decode(cfg, input.frame.op, input.frame.arg1, input.frame.arg2) == ContinueLoad;
    if !s.dev.duplicateTCmd {
      assert Arm(cfg, s.dev, ContinueLoad, input.loaded).events[1] == Do(LoadIntoExtruder);
    }
  }

  /** Replies of the read-only and bookkeeping queries S0..S3, P0 and U0. */
  lemma QueryReplies(cfg: Config, s: State, input: PollInput)
    requires WellFormed(cfg) && Valid(cfg, s)
    requires !ResendDue(cfg, s.link, input.now) && Accepts(s, input.frame)
    ensures var r := Step(cfg, s, input);
            var f := input.frame;
            var pre := SensorAck(s.link) + [Tx(Ack)];
            && (f.op == Chr('S') && f.arg1 == Chr('0') ==>
                  r.events == pre + [Tx(Send(cfg.ok))]
                  && r.state.dev == s.dev)
            && (f.op == Chr('S') && f.arg1 == Chr('3') ==>
                  r.events == pre + [Tx(Send(Payload(Chr('O'), Chr('K'), s.dev.activeExtruder)))]
                  && r.state.dev == s.dev)
            && (f.op == Chr('S') && f.arg1 == Chr('1') ==>
                  r.events == pre + [Tx(Send(Payload(cfg.fwVersion / 256, cfg.fwVersion % 256, cfg.blk)))]
                  && r.state.dev == s.dev)
            && (f.op == Chr('S') && f.arg1 == Chr('2') ==>
                  r.events == pre + [Tx(Send(Payload(cfg.fwBuildNr / 256, cfg.fwBuildNr % 256, cfg.blk)))]
                  && r.state.dev == s.dev)
            && (f.op == Chr('P') && f.arg1 == Chr('0') ==>
                  r.events == pre + [Tx(Send(Payload(Chr('P'), Chr('K'),
                                                    if s.dev.isPrinting && !input.loaded then 0 else 1)))]
                  && r.state.dev == s.dev)
            && (f.op == Chr('U') && f.arg1 == Chr('0') ==>
                  r.events == pre + [Do(UnloadWithSensor), Tx(Send(cfg.ok))]
                  && r.state.dev == TakeOver(s.dev, input.handoff).(isPrinting := false, trackToolChanges := 0))
  {
    var f := input.frame;
    if f.op == Chr('U') && f.arg1 == Chr('0') {
      AcceptedStep(cfg, s, input);
      assert Decode(cfg, f.op, f.arg1, f.arg2) == UnloadFilament;
      assert Arm(cfg, s.dev, UnloadFilament, input.loaded).events[0] == Do(UnloadWithSensor);
    }
  }

  /** The arms that hand over to a collaborator: L (both cases), M, E, R0
      and X0. */
  lemma OtherArms(cfg: Config, s: State, input: PollInput)
    requires WellFormed(cfg) && Valid(cfg, s)
    requires !ResendDue(cfg, s.link, input.now) && Accepts(s, input.frame)
    ensures var r := Step(cfg, s, input);
            var f := input.frame;
            var h := input.handoff;
            var pre := SensorAck(s.link) + [Tx(Ack)];
            // L c with filament at FINDA: report the blockage around a nested
            // poll, then OK; the channel stays put.
            && (f.op == Chr('L') && f.arg1 < cfg.extruders && input.loaded ==>
                  r.events == pre + [Tx(Send(Z1Dash)), Do(NestedPoll), Tx(Send(ZZZ)), Tx(Send(cfg.ok))]
                  && r.state.dev == TakeOver(s.dev, h))
            // L c without: select c, feed, then OK.
            && (f.op == Chr('L') && f.arg1 < cfg.extruders && !input.loaded ==>
                  r.events == pre + [Do(SelectChannel(f.arg1)), Do(FeedFilament), Tx(Send(cfg.ok))]
                  && r.state.dev == TakeOver(s.dev.(activeExtruder := f.arg1), h))
            // M: '0' and '1' pick a mode, any other byte keeps the current one.
            && (f.op == Chr('M') ==>
                  var mode := if f.arg1 == Chr('0') then Normal
                              else if f.arg1 == Chr('1') then Stealth
                              else s.dev.tmcMode;
                  r.events == pre + [Do(InitDrivers(mode)), Tx(Send(cfg.ok))]
                  && r.state.dev == TakeOver(s.dev.(tmcMode := mode), h))
            // E c starts a runout change before the eject.
            && (f.op == Chr('E') && f.arg1 < cfg.extruders ==>
                  r.events == pre + [Do(EjectChannel(f.arg1)), Tx(Send(cfg.ok))]
                  && r.state.dev == TakeOver(s.dev.(m600RunoutChanging := true), h)
                  && r.state.dev.m600RunoutChanging)
            && (f.op == Chr('R') && f.arg1 == Chr('0') ==>
                  r.events == pre + [Do(RecoverEject), Tx(Send(cfg.ok))]
                  && r.state.dev == TakeOver(s.dev, h))
            // X0 arms the watchdog and sends no reply.
            && (f.op == Chr('X') && f.arg1 == Chr('0') ==>
                  r.events == pre + [Do(WatchdogReset)]
                  && r.state.dev == TakeOver(s.dev, h))
  {
    var f := input.frame;
    var cmd := Decode(cfg, f.op, f.arg1, f.arg2);
    AcceptedStep(cfg, s, input);
    if f.op == Chr('L') && f.arg1 < cfg.extruders {
      assert cmd == LoadFilament(f.arg1);
      if input.loaded {
        assert Arm(cfg, s.dev, cmd, input.loaded).events[1] == Do(NestedPoll);
      } else {
        assert Arm(cfg, s.dev, cmd, input.loaded).events[0] == Do(SelectChannel(f.arg1));
      }
    } else if f.op == Chr('M') {
      assert cmd.SetMode?;
      assert Arm(cfg, s.dev, cmd, input.loaded).events[0].Do?;
    } else if f.op == Chr('E') && f.arg1 < cfg.extruders {
      assert cmd == EjectFilament(f.arg1);
      assert Arm(cfg, s.dev, cmd, input.loaded).events[0] == Do(EjectChannel(f.arg1));
    } else if f.op == Chr('R') && f.arg1 == Chr('0') {
      assert cmd == RecoverAfterEject;
      assert Arm(cfg, s.dev, cmd, input.loaded).events[0] == Do(RecoverEject);
    } else if f.op == Chr('X') && f.arg1 == Chr('0') {
      assert cmd == ResetDevice;
      assert Arm(cfg, s.dev, cmd, input.loaded).events[0] == Do(WatchdogReset);
    }
  }

  /** The host repeats T c after the tool change already happened: the
      second frame is answered OK without a second tool change. */
  lemma RepeatedToolChangeIsIdempotent(cfg: Config, s: State, in1: PollInput, in2: PollInput)
    requires WellFormed(cfg) && Valid(cfg, s)
    requires in1.frame == in2.frame && in1.frame.op == Chr('T') && in1.frame.arg1 < cfg.extruders
    requires !ResendDue(cfg, s.link, in1.now) && Accepts(s, in1.frame)
    requires in2.loaded
    requires !ResendDue(cfg, Step(cfg, s, in1).state.link, in2.now)
    ensures var r1 := Step(cfg, s, in1);
            var r2 := Step(cfg, r1.state, in2);
            && Tx(Send(cfg.ok)) in r1.events
            && r2.events == [Tx(Ack), Tx(Send(cfg.ok))]
            && r2.state.dev.duplicateTCmd
  {
    var c := in1.frame.arg1;
    AcceptedStep(cfg, s, in1);
    assert Decode(cfg, in1.frame.op, c, in1.frame.arg2) == ToolChange(c);
    var r1 := Step(cfg, s, in1);
    assert r1.state.dev.activeExtruder == c && !r1.state.dev.m600RunoutChanging;
    assert r1.events[|r1.events| - 1] == Tx(Send(cfg.ok));
    AcceptedStep(cfg, r1.state, in2);
  }

  /** After an eject (a runout change) the same channel's T is not treated
      as a duplicate: the tool change runs and the runout flag is cleared. */
  lemma RunoutChangeIsNotDuplicate(cfg: Config, s: State, input: PollInput)
    requires WellFormed(cfg) && Valid(cfg, s)
    requires !ResendDue(cfg, s.link, input.now) && Accepts(s, input.frame)
    requires input.frame.op == Chr('T') && input.frame.arg1 < cfg.extruders
    requires s.dev.m600RunoutChanging
    ensures var r := Step(cfg, s, input);
            && RunToolChange(input.frame.arg1) in Actions(r.events)
            && !r.state.dev.m600RunoutChanging && !r.state.dev.duplicateTCmd
  {
    var r := Step(cfg, s, input);
    assert Do(RunToolChange(input.frame.arg1)) in r.events;
  }

  /** S3 while channel 2 is selected replies "OK" followed by 2. */
  lemma ActiveChannelScenario(cfg: Config, s: State, now: nat, loaded: bool, h: Handoff)
    requires WellFormed(cfg) && Valid(cfg, s) && cfg.extruders == 5
    requires s.dev.activeExtruder == 2 && !s.dev.inErrorState
    requires s.link.confirmedPayload && !s.link.txNakNext && !s.link.fsensorTriggered
    requires !ResendDue(cfg, s.link, now)
    ensures Step(cfg, s, PollInput(Seal(Chr('S'), Chr('3'), 0), now, loaded, h)).events
            == [Tx(Ack), Tx(Send(Payload(Chr('O'), Chr('K'), 2)))]
  {
  }

  /** T 1 with a wrong checksum is answered by a lone NACK. */
  lemma BadChecksumScenario(cfg: Config, s: State, now: nat, loaded: bool, h: Handoff, csum1: Byte, csum2: Byte)
    requires WellFormed(cfg) && Valid(cfg, s)
    requires s.link.confirmedPayload && !s.link.fsensorTriggered
    requires !ResendDue(cfg, s.link, now)
    requires csum1 * 256 + csum2 != Chr('T') + 1
    ensures var r := Step(cfg, s, PollInput(Frame(Chr('T'), 1, 0, csum1, csum2), now, loaded, h));
            r.events == [Tx(Nack)] && r.state.dev == s.dev
  {
    ChecksumIsUnsigned(Frame(Chr('T'), 1, 0, csum1, csum2));
  }
}

=== FILE: recovery.dfy ===
/** The operator-assisted recovery loops fixTheProblem, fixSelCrash and
    fixIdlCrash, as functions over a finite sequence of loop-guard
    observations. Each pass of a loop polls the link through the same step as
    the main loop, with inErrorState set. */
module Recovery {
  import opened Types
  import opened MachineState
  import opened ProcessCommands

  /** One evaluation of a loop guard: the buttonClicked() and FINDA samples
      it reads, and the input of the process_commands() call that follows it
      (inside the loop body, or after the loop for fixTheProblem). */
  datatype Tick = Tick(button: Button, loaded: bool, poll: PollInput)

  datatype Fix = Problem | SelectorCrash | IdlerCrash

  /** The loop guard is false: the middle button, and for fixTheProblem also
      no filament at FINDA. The FINDA sample is only read after a middle
      click, and otherwise ignored. */
  predicate Exits(kind: Fix, t: Tick)
  {
    t.button == Middle && (kind == Problem ==> !t.loaded)
  }

  /** `exitAt` is the index of the tick that ended the loop, if any did. */
  datatype LoopExit = LoopExit(exitAt: Option<nat>, state: State, events: seq<Event>)

  /** The while loop: poll once per tick until a tick ends it. */
  function WaitLoop(cfg: Config, kind: Fix, s: State, ticks: seq<Tick>): (r: LoopExit)
    requires WellFormed(cfg) && Valid(cfg, s)
    ensures Valid(cfg, r.state)
    ensures r.state.dev.inErrorState == s.dev.inErrorState
    // The loop ends at the first tick that falsifies the guard, and only there.
    ensures r.exitAt.Some? ==> r.exitAt.value < |ticks| && Exits(kind, ticks[r.exitAt.value])
    ensures forall j :: 0 <= j < |ticks| && Exits(kind, ticks[j]) ==> r.exitAt.Some? && r.exitAt.value <= j
    // In error state the polls only service the link.
    ensures s.dev.inErrorState ==> r.state.dev == s.dev && AllTx(r.events)
    decreases |ticks|
  {
    if |ticks| == 0 then LoopExit(None, s, [])
    else if Exits(kind, ticks[0]) then LoopExit(Some(0), s, [])
    else
      var p := Step(cfg, s, ticks[0].poll);
      var rest := WaitLoop(cfg, kind, p.state, ticks[1..]);
      var exitAt := match rest.exitAt
                    case Some(k) => Some(k + 1)
                    case None => None;
      assert s.dev.inErrorState ==> AllTx(p.events + rest.events) by {
        if s.dev.inErrorState { AllTxAppend(p.events, rest.events); }
      }
      LoopExit(exitAt, rest.state, p.events + rest.events)
  }

  /** fixTheProblem: entry effects, the loop, and on exit re-enabling the
      drivers, clearing the error, one more poll, "ZZZ", homing, and zeroing
      the tool-change counter. */
  function FixTheProblem(cfg: Config, s: State, ticks: seq<Tick>): (r: LoopExit)
    requires WellFormed(cfg) && Valid(cfg, s)
    ensures Valid(cfg, r.state)
    ensures r.exitAt.None? <==> forall j :: 0 <= j < |ticks| ==> !(ticks[j].button == Middle && !ticks[j].loaded)
    // The loop stops at the first such tick.
    ensures forall j :: 0 <= j < |ticks| && ticks[j].button == Middle && !ticks[j].loaded ==>
              r.exitAt.Some? && r.exitAt.value <= j
    ensures r.exitAt.Some? ==>
              && r.exitAt.value < |ticks|
              && ticks[r.exitAt.value].button == Middle && !ticks[r.exitAt.value].loaded
              && !r.state.dev.inErrorState
              && r.state.dev.trackToolChanges == 0
    ensures r.exitAt.None? ==> r.state.dev == s.dev.(inErrorState := true)
  {
    var entry := [Do(EngagePulley(false)), Do(DisableAxis(SelectorAxis)), Do(DisableAxis(IdlerAxis))];
    var w := WaitLoop(cfg, Problem, s.(dev := s.dev.(inErrorState := true)), ticks);
    match w.exitAt
    case None => LoopExit(None, w.state, entry + w.events)
    case Some(i) =>
      var mode := w.state.dev.tmcMode;
      var p := Step(cfg, w.state.(dev := w.state.dev.(inErrorState := false)), ticks[i].poll);
      LoopExit(Some(i), p.state.(dev := p.state.dev.(trackToolChanges := 0)),
               entry + w.events
               + [Do(InitAxis(SelectorAxis, mode)), Do(InitAxis(IdlerAxis, mode))]
               + p.events + [Tx(Send(ZZZ)), Do(HomeAndRestore)])
  }

  /** fixSelCrash: wait for the middle button, then reset the selector's
      stall counter, clear the error and restore the selector position. */
  function FixSelCrash(cfg: Config, s: State, ticks: seq<Tick>): (r: LoopExit)
    requires WellFormed(cfg) && Valid(cfg, s)
    ensures Valid(cfg, r.state)
    ensures r.exitAt.None? <==> forall j :: 0 <= j < |ticks| ==> ticks[j].button != Middle
    // The loop stops at the first middle click.
    ensures forall j :: 0 <= j < |ticks| && ticks[j].button == Middle ==> r.exitAt.Some? && r.exitAt.value <= j
    ensures r.exitAt.Some? ==>
              && r.exitAt.value < |ticks| && ticks[r.exitAt.value].button == Middle
              && r.state.dev == s.dev.(selSGFailCount := 0, inErrorState := false)
    ensures r.exitAt.None? ==> r.state.dev == s.dev.(inErrorState := true)
  {
    var entry := [Do(EngagePulley(false)), Do(DisableAxis(SelectorAxis))];
    var w := WaitLoop(cfg, SelectorCrash, s.(dev := s.dev.(inErrorState := true)), ticks);
    match w.exitAt
    case None => LoopExit(None, w.state, entry + w.events)
    case Some(i) =>
      LoopExit(Some(i), w.state.(dev := w.state.dev.(selSGFailCount := 0, inErrorState := false)),
               entry + w.events + [Do(RestoreAxis(SelectorAxis, w.state.dev.activeExtruder))])
  }

  /** fixIdlCrash: the same shape for the idler. */
  function FixIdlCrash(cfg: Config, s: State, ticks: seq<Tick>): (r: LoopExit)
    requires WellFormed(cfg) && Valid(cfg, s)
    ensures Valid(cfg, r.state)
    ensures r.exitAt.None? <==> forall j :: 0 <= j < |ticks| ==> ticks[j].button != Middle
    // The loop stops at the first middle click.
    ensures forall j :: 0 <= j < |ticks| && ticks[j].button == Middle ==> r.exitAt.Some? && r.exitAt.value <= j
    ensures r.exitAt.Some? ==>
              && r.exitAt.value < |ticks| && ticks[r.exitAt.value].button == Middle
              && r.state.dev == s.dev.(idlSGFailCount := 0, inErrorState := false)
    ensures r.exitAt.None? ==> r.state.dev == s.dev.(inErrorState := true)
  {
    var entry := [Do(DisableAxis(IdlerAxis))];
    var w := WaitLoop(cfg, IdlerCrash, s.(dev := s.dev.(inErrorState := true)), ticks);
    match w.exitAt
    case None => LoopExit(None, w.state, entry + w.events)
    case Some(i) =>
      LoopExit(Some(i), w.state.(dev := w.state.dev.(idlSGFailCount := 0, inErrorState := false)),
               entry + w.events + [Do(RestoreAxis(IdlerAxis, w.state.dev.activeExtruder))])
  }

  /** fixTheProblem never leaves its loop at a tick where FINDA still sees
      filament, whatever the button. */
  lemma NoExitWhileLoaded(cfg: Config, s: State, ticks: seq<Tick>, j: nat)
    requires WellFormed(cfg) && Valid(cfg, s)
    requires j < |ticks| && ticks[j].loaded
    ensures FixTheProblem(cfg, s, ticks).exitAt != Some(j)
  {
  }

  /** While the error flag is set, the loop's polls answer the link but make
      no collaborator call and leave the device as it was. */
  lemma LoopOnlyServicesLink(cfg: Config, kind: Fix, s: State, ticks: seq<Tick>)
    requires WellFormed(cfg) && Valid(cfg, s) && s.dev.inErrorState
    ensures var w := WaitLoop(cfg, kind, s, ticks);
            && Actions(w.events) == []
            && w.state.dev == s.dev
  {
    var w := WaitLoop(cfg, kind, s, ticks);
    AllTxHasNoActions(w.events);
  }

  /** A resend that falls due while the operator is fixing the problem is
      still sent in the loop's first pass. */
  lemma ResendServedDuringRecovery(cfg: Config, s: State, ticks: seq<Tick>)
    requires WellFormed(cfg) && Valid(cfg, s)
    requires |ticks| > 0 && !Exits(Problem, ticks[0])
    requires ResendDue(cfg, s.link, ticks[0].poll.now)
    ensures var r := FixTheProblem(cfg, s, ticks);
            |r.events| > 3 && r.events[3] == Tx(Send(s.link.lastTxPayload))
  {
    var s1 := s.(dev := s.dev.(inErrorState := true));
    var w := WaitLoop(cfg, Problem, s1, ticks);
    var p := Step(cfg, s1, ticks[0].poll);
    assert p.events == [Tx(Send(s.link.lastTxPayload))];
    assert w.events[0] == Tx(Send(s.link.lastTxPayload));
  }
}

=== FILE: selector.dfy ===
/** manual_extruder_selector: the left and right buttons move the selector
    between the channels and park while no filament is loaded. */
module Selector {
  import opened Types
  import opened MachineState
  import opened Leds

  datatype SelectorResult = SelectorResult(active: nat, events: seq<Event>)

  /** The button part: the new channel and what the click emits. */
  function Click(cfg: Config, active: nat, loaded: bool, button: Button): (r: (nat, seq<Event>))
    requires WellFormed(cfg) && active <= cfg.extruders
    ensures r.0 <= cfg.extruders
    ensures loaded ==> r.0 == active
    ensures loaded && (button == Left || button == Right) ==>
              r.1 == [Tx(Send(Z1Dash)), Do(NestedPoll), Tx(Send(ZZZ))]
    ensures loaded && !(button == Left || button == Right) ==> r.1 == []
  {
    if !loaded then
      match button
      case Right =>
        var next := if active < cfg.extruders then active + 1 else active;
        (next, (if active < cfg.extruders then [Do(SelectChannel(next))] else [])
               + (if next == cfg.extruders then [Tx(Send(X1Dash))] else []))
      case Left =>
        var next := if active > 0 then active - 1 else active;
        (next, (if active == cfg.extruders then [Tx(Send(ZZZ))] else [])
               + (if active > 0 then [Do(SelectChannel(next))] else []))
      case _ => (active, [])
    else if button == Right || button == Left then
      (active, [Tx(Send(Z1Dash)), Do(NestedPoll), Tx(Send(ZZZ))])
    else
      (active, [])
  }

  /** The blockage report of a loaded click starts at index `i` of `t`:
      "Z1-", a nested poll, then "ZZZ". */
  predicate ReportsBlockageAt(t: seq<Event>, i: int)
  {
    0 <= i && i + 3 <= |t| && t[i..i + 3] == [Tx(Send(Z1Dash)), Do(NestedPoll), Tx(Send(ZZZ))]
  }

  /** One call of manual_extruder_selector; `loaded` is its FINDA sample and
      `button` its buttonClicked() sample. The channel LED of line 96 is drawn
      through the corrected `ChannelLed`, so at park the LEDs are only cleared,
      where the shift as written is undefined. */
  function ManualExtruderSelector(cfg: Config, active: nat, loaded: bool, button: Button): (r: SelectorResult)
    requires WellFormed(cfg) && active <= cfg.extruders
    ensures r.active <= cfg.extruders
    // A click moves the selector by one position, and only with no filament loaded.
    ensures r.active != active ==>
              && !loaded
              && ((button == Right && r.active == active + 1) || (button == Left && r.active + 1 == active))
              && Do(SelectChannel(r.active)) in r.events
    ensures !loaded && button == Right && active < cfg.extruders ==> r.active == active + 1
    ensures !loaded && button == Left && active > 0 ==> r.active + 1 == active
    // "X1-" is sent exactly when a right click leaves the selector at park.
    ensures Tx(Send(X1Dash)) in r.events <==> !loaded && button == Right && r.active == cfg.extruders
    // With filament loaded a click reports the blockage: "Z1-", a nested
    // poll, then "ZZZ", in that order; no other payload is ever sent.
    ensures loaded && (button == Left || button == Right) ==>
              exists i :: ReportsBlockageAt(r.events, i)
    ensures loaded ==> forall p :: Tx(Send(p)) in r.events ==> p == Z1Dash || p == ZZZ
  {
    var leds := [Do(ClearLeds)] + (match ChannelLed(active)
                                   case Some(m) => [Do(SetLeds(m))]
                                   case None => []);
    var (next, clicked) := Click(cfg, active, loaded, button);
    var park := if next == 5 then [Do(ClearLeds), Do(SetLeds(3)), Do(ClearLeds)] else [];
    var events := leds + clicked + park;
    assert forall e :: e in events <==> e in leds || e in clicked || e in park;
    assert forall e :: e in leds || e in park ==> e.Do?;
    assert loaded && (button == Left || button == Right) ==> ReportsBlockageAt(events, |leds|) by {
      if loaded && (button == Left || button == Right) {
        assert events[|leds|..|leds| + 3] == clicked;
      }
    }
    SelectorResult(next, events)
  }

  /** A right click followed by a left click returns to the starting channel. */
  lemma RightThenLeft(cfg: Config, active: nat)
    requires WellFormed(cfg) && active < cfg.extruders
    ensures var r := ManualExtruderSelector(cfg, active, false, Right);
            ManualExtruderSelector(cfg, r.active, false, Left).active == active
  {
  }

  /** A left click followed by a right click returns to the starting position. */
  lemma LeftThenRight(cfg: Config, active: nat)
    requires WellFormed(cfg) && 0 < active <= cfg.extruders
    ensures var r := ManualExtruderSelector(cfg, active, false, Left);
            ManualExtruderSelector(cfg, r.active, false, Right).active == active
  {
  }

  /** At park, a left click sends "ZZZ" and selects the last channel. */
  lemma LeftFromPark(cfg: Config)
    requires WellFormed(cfg)
    ensures var r := ManualExtruderSelector(cfg, cfg.extruders, false, Left);
            && r.active == cfg.extruders - 1
            && Tx(Send(ZZZ)) in r.events
  {
    var r := ManualExtruderSelector(cfg, cfg.extruders, false, Left);
    var (next, clicked) := Click(cfg, cfg.extruders, false, Left);
    assert clicked[0] == Tx(Send(ZZZ));
  }

  /** Line 96 as written: with five channels, one right click from the last
      channel reaches park, where the next call shifts by a negative count. */
  lemma ParkLedShiftIsNegative(cfg: Config)
    requires WellFormed(cfg) && cfg.extruders == 5
    ensures var r := ManualExtruderSelector(cfg, 4, false, Right);
            && r.active == 5
            && ShiftCount(r.active) < 0
            && !ShiftDefined(ShiftCount(r.active))
  {
  }

  /** The corrected line 96 lights exactly the selected channel's green LED
      wherever the selector can stand, and no LED at park. */
  lemma SelectorLedIsDefined(cfg: Config, active: nat)
    requires WellFormed(cfg) && cfg.extruders == 5 && active <= cfg.extruders
    ensures var r := ManualExtruderSelector(cfg, active, false, NoButton);
            && (active < 5 ==> r.events == [Do(ClearLeds), Do(SetLeds(GreenMask(active)))])
            && (active == 5 ==> r.events == [Do(ClearLeds), Do(ClearLeds), Do(SetLeds(3)), Do(ClearLeds)])
  {
  }
}

=== FILE: state.dfy ===
/** The firmware's global variables, split into the link session and the
    device state, plus the build-time constants the model is parameterised by. */
module MachineState {
  import opened Types

  /** Build-time constants of the firmware (defined in its configuration
      header): EXTRUDERS, the OK reply, FW_VERSION, FW_BUILDNR, BLK, the
      resend timeout TXTimeout and the idle power-down period WAKE_TIMER. */
  datatype Config = Config(
    extruders: nat,
    ok: Payload,
    fwVersion: nat,
    fwBuildNr: nat,
    blk: Byte,
    txTimeout: nat,
    wakeTimer: nat)

  /** Constants fit the types the firmware stores them in: a channel index is
      compared with a received byte, and the version numbers are split into
      two bytes. */
  predicate WellFormed(cfg: Config)
  {
    && 0 < cfg.extruders < 256
    && cfg.fwVersion < 0x1_0000
    && cfg.fwBuildNr < 0x1_0000
  }

  /** Device globals read or written by main.cpp. Index `extruders` of
      `activeExtruder` is the park position. */
  datatype Device = Device(
    activeExtruder: nat,
    filamentType: seq<nat>,
    isPrinting: bool,
    isEjected: bool,
    inErrorState: bool,
    duplicateTCmd: bool,
    m600RunoutChanging: bool,
    mmuFSensorLoading: bool,
    trackToolChanges: nat,
    tmcMode: DriverMode,
    selSGFailCount: nat,
    idlSGFailCount: nat,
    startWakeTime: nat)

  /** Link-session globals shared with the receive interrupt. */
  datatype Link = Link(
    confirmedPayload: bool,
    txResend: bool,
    pendingAck: bool,
    txNakNext: bool,
    fsensorTriggered: bool,
    startRxFlag: bool,
    startTxTimeout: nat,
    lastTxPayload: Payload)

  datatype State = State(link: Link, dev: Device)

  /** The selected channel is a real channel or park, and there is one
      filament type per channel. */
  predicate ValidDevice(cfg: Config, d: Device)
  {
    d.activeExtruder <= cfg.extruders && |d.filamentType| == cfg.extruders
  }

  predicate Valid(cfg: Config, s: State)
  {
    ValidDevice(cfg, s.dev)
  }
}

=== FILE: types.dfy ===
/** Vocabulary shared by every part of the MMU model: bytes, reply payloads,
    buttons, and the trace of link emissions and collaborator calls that one
    step of the firmware produces. */
module Types {

  /** An unsigned char of the firmware. */
  type Byte = x: int | 0 <= x < 256

  datatype Option<+T> = None | Some(value: T)

  /** The byte a character literal such as 'T' stands for. */
  function Chr(c: char): (b: Byte)
    requires c as int < 256
    ensures b as int == c as int
  {
    c as int
  }

  /** A three-byte payload handed to txPayload. */
  datatype Payload = Payload(b0: Byte, b1: Byte, b2: Byte)

  /** "Z1-": the printer is told that filament blocks the request. */
  const Z1Dash: Payload := Payload(Chr('Z'), Chr('1'), Chr('-'))
  /** "ZZZ": the printer may clear its message. */
  const ZZZ: Payload := Payload(Chr('Z'), Chr('Z'), Chr('Z'))
  /** "X1-": the operator pushed right while the selector is parked. */
  const X1Dash: Payload := Payload(Chr('X'), Chr('1'), Chr('-'))

  /** Result of buttonClicked(). */
  datatype Button = NoButton | Left | Middle | Right

  /** Driver mode set by the M command (NORMAL_MODE / STEALTH_MODE). */
  datatype DriverMode = Normal | Stealth

  datatype Axis = SelectorAxis | IdlerAxis

  /** What the link layer sends: an ACK byte, a NACK byte or a reply payload. */
  datatype Emission = Ack | Nack | Send(payload: Payload)

  /** Calls that a step makes outside its own body: into collaborators that
      main.cpp calls but does not define, and the re-entrant
      process_commands() call recorded as `NestedPoll`. */
  datatype Action =
    | RunToolChange(channel: nat)        // toolChange(c)
    | SelectChannel(channel: nat)        // set_positions(c, true)
    | FeedFilament                       // feed_filament()
    | UnloadWithSensor                   // unload_filament_withSensor()
    | EjectChannel(channel: nat)         // eject_filament(c)
    | RecoverEject                       // recover_after_eject()
    | LoadIntoExtruder                   // load_filament_into_extruder()
    | InitDrivers(mode: DriverMode)      // tmc2130_init(mode)
    | WatchdogReset                      // wdt_enable(WDTO_15MS)
    | NestedPoll                         // a re-entrant process_commands()
    | SetupMenu                          // setupMenu()
    | RetractEjected                     // the pulley move while ejected
    | DisableAllSteppers                 // disableAllSteppers()
    | EngagePulley(on: bool)             // engage_filament_pulley(on)
    | DisableAxis(axis: Axis)            // shr16_clr_ena(axis)
    | InitAxis(axis: Axis, mode: DriverMode)  // tmc2130_init_axis(axis, mode)
    | HomeAndRestore                     // home(true)
    | RestoreAxis(axis: Axis, channel: nat)   // set_*_toLast_positions(c)
    | ClearLeds                          // shr16_clr_led()
    | SetLeds(mask: bv16)                // shr16_set_led(mask)

  /** One observable effect, in program order. */
  datatype Event = Tx(emission: Emission) | Do(action: Action)

  /** True when a trace holds link emissions only. */
  predicate AllTx(t: seq<Event>)
  {
    forall k :: 0 <= k < |t| ==> t[k].Tx?
  }

  lemma AllTxAppend(a: seq<Event>, b: seq<Event>)
    requires AllTx(a) && AllTx(b)
    ensures AllTx(a + b)
  {
    forall k | 0 <= k < |a + b|
      ensures (a + b)[k].Tx?
    {
      if k >= |a| {
        assert (a + b)[k] == b[k - |a|];
      }
    }
  }

  /** The collaborator calls of a trace, in order. */
  function Actions(t: seq<Event>): (a: seq<Action>)
    ensures |a| <= |t|
    ensures forall x :: x in a <==> Do(x) in t
  {
    if |t| == 0 then []
    else
      var rest := Actions(t[1..]);
      assert forall ev :: ev in t <==> ev == t[0] || ev in t[1..];
      match t[0]
      case Tx(_) => rest
      case Do(x) => [x] + rest
  }

  /** A trace of emissions only has no collaborator calls. */
  lemma {:induction false} AllTxHasNoActions(t: seq<Event>)
    requires AllTx(t)
    ensures Actions(t) == []
    decreases |t|
  {
    if |t| > 0 {
      AllTxHasNoActions(t[1..]);
    }
  }
}
